=== FILE: README.md ===
# DevEvent core in Dafny

A model of the write-side logic of the DevEvent backend (a Next.js and Mongoose event
site). It covers three pieces:

- **The Event schema** (`database/event.model.ts`). The text setters run first. Then the
  validators run: title length after trimming, the `mode` enum, non-empty agenda and
  tags, and `required` on every path. Then the pre-save hook runs. It derives the slug
  from the title, and it normalizes the date and the time through `new Date(...)` and
  `toISOString()`. Last, the unique index on `slug` can refuse the write.
- **The Booking schema** (`database/booking.model.ts`). The email is lower-cased and
  trimmed, then checked against `^[^\s@]+@[^\s@]+\.[^\s@]+$`. The pre-save check
  refuses a new booking, or one whose `eventId` changed, when that Event does not exist.
- **`POST /api/events`** (`app/api/events/route.ts`). The `Content-Type` header is
  classified as JSON, form or unsupported. The decoded body goes to `Event.create`, and
  the outcome becomes status 201, 400 or 500.

Modules:

- `Wrappers`: `Option` and `Saved`. `Saved` is a write's resulting store plus its error.
- `Text`: the JavaScript character classes `\s` and `\w`, `toLowerCase` and `trim`,
  plus filtering and edge-stripping of strings.
- `Slug`: the five-step slug rewrite.
- `IsoTime`: the formatting done by `toISOString`, `split("T")[0]` and
  `substring(11, 16)`, and the `HH:MM` regular expression.
- `EventModel`: setters, validators, the pre-save hook, `save()` and `Event.create`.
- `Email`: the email setters and the validator.
- `BookingModel`: the store (`Db`) of Events and Bookings, and booking `save()`.
- `EventsRoute`: the `POST` handler.

Mongoose's implicit state becomes explicit:

- "Modified" is a `Modified` record of flags for the Event hook.
- For bookings, "new" means the id is not yet in the store. "`eventId` modified" means
  it differs from the stored value.
- A collection is a finite map from object ids to documents.
- A field that is left out is the empty string or the empty list. `required` treats both
  the same way.

Mongoose runs validation before user `pre('save')` hooks. So the validators see the
values as assigned, and the derived slug, date and time are never validated.
`EventModel.PreSaveKeepsValid` shows that what the hook writes still passes them.

Behaviour of the code worth noting:

- Runs of hyphens in a slug are not collapsed. `"a - b"` becomes `"a---b"`.
- The hook always assigns a string slug. So the index's `sparse` option never exempts a
  document, and two titles without letters or digits both derive `""` and collide
  (`EventModel.EmptySlugsCollide`).
- The title's `minlength: 3` counts UTF-16 code units, as JavaScript's `length` does, so
  a title of two emoji passes it (`EventModel.WideTitleAccepted`).
- A validation error inside `Event.create` is answered 500, not 400.
- `connectDB()` runs before the header test. So a failed connection gives 500 even for
  an unsupported content type.
- A parsed date is stored as `YYYY-MM-DD` only for years 0 to 9999. Other years become
  `+YYYYYY-MM-DD` or `-YYYYYY-MM-DD` (`IsoTime.IsoDateExtendedYear`).

## Model

| member | source | states |
|---|---|---|
| Text.Trim | database/event.model.ts:33 | `trim` leaves neither end of its result a whitespace character, and keeps only characters of its input |
| Text.Lower | database/event.model.ts:122 | `toLowerCase` on ASCII: the length is kept and each character is mapped on its own, `A`-`Z` to `a`-`z` letter for letter, every other character to itself (non-ASCII capitals are not lowered; see Left out) |
| Text.Filter | database/event.model.ts:124 | `replace(/[^\w\s-]/g, "")` keeps exactly the characters of the class, in order: the result uses only kept characters of the input, and `Text.FilterConcat`, `Text.FilterKeepsAll` and `Text.FilterEmpty` show it works piece by piece, removes nothing exactly when every character is kept, and yields nothing exactly when none is |
| Text.FilterKeepsAll | database/event.model.ts:124 | filtering leaves a string unchanged if and only if every character passes |
| Text.Strip | database/event.model.ts:126 | `replace(/^-+\|-+$/g, "")` leaves neither end of the result a hyphen and keeps only input characters; `Text.StripRemovesOnlyEdges` shows only the two edge runs are cut |
| Text.StripRemovesOnlyEdges | database/event.model.ts:126 | the stripped string is `s[i..j]` with every character outside it in the stripped class |
| Text.TrimRemovesOnlyEdges | database/event.model.ts:33 | `trim` cuts whitespace from the two ends only: the result is `s[i..j]` with every character outside it whitespace |
| Text.JsLength | database/event.model.ts:34 | `length` counts UTF-16 code units: one character counts 1 below U+10000 and 2 from U+10000 on; with `Text.JsLengthConcat` this fixes the count of every string; it lies between the number of characters and twice that |
| Text.JsLengthConcat | database/event.model.ts:34 | the code-unit length of a concatenation is the sum of the parts' lengths |
| Slug.Slugify | database/event.model.ts:121-126 | the derived slug uses only `[a-z0-9-]` (so no whitespace and no underscore) and neither starts nor ends with `-` |
| Slug.Hyphenate | database/event.model.ts:125 | after replacing `[\s_]+` by `-` no whitespace or underscore is left, and every character is either `-` or one of the input's |
| Slug.HyphenateConcat | database/event.model.ts:125 | the rewrite works run by run: for a cut that does not split a run of separators, the rewrite of the whole is the rewrite of the first part followed by that of the second |
| Slug.HyphenateRun | database/event.model.ts:125 | a non-empty run of whitespace and underscores, however long, becomes exactly one `-` |
| Slug.HyphenateNoSeparators | database/event.model.ts:125 | a string without whitespace or underscore, hyphens included, is left exactly as it is |
| Slug.HyphenateKeepsAlnums | database/event.model.ts:125 | replacing separator runs by hyphens keeps the letters and digits of the input, in order |
| Slug.SlugKeepsAlnums | database/event.model.ts:121-126 | the letters and digits of the slug are exactly those of the lower-cased title, in order |
| Slug.SlugIdempotent | database/event.model.ts:121-126 | deriving a slug from a derived slug gives it back unchanged |
| Slug.SlugFixedPoint | database/event.model.ts:121-126 | every `[a-z0-9-]` string without an edge hyphen is its own slug |
| Slug.SlugEmptyIff | database/event.model.ts:121-126 | the slug is empty if and only if the title has no ASCII letter or digit |
| Slug.SlugIgnoresTitleTrim | database/event.model.ts:33 | trimming the title first, as its `trim` setter does, does not change the slug |
| Slug.SlugKeepsHyphenRuns | database/event.model.ts:124-126 | runs of hyphens are not collapsed: `"a - b"` derives `"a---b"` |
| IsoTime.IsoDateIsCalendarDay | database/event.model.ts:133 | `toISOString().split("T")[0]` is the instant's calendar day field |
| IsoTime.ToIsoString | database/event.model.ts:133 | `toISOString` writes the calendar day, then `T`, then thirteen more characters ending in `Z`: 24 characters for years 0 to 9999, 27 with the signed six-digit year |
| IsoTime.BeforeFirst | database/event.model.ts:133 | `split("T")[0]` is the longest prefix without `T`: the whole string when it has none, otherwise the part before the first `T` |
| IsoTime.Substring | database/event.model.ts:143 | `substring` takes `s[start..end]` for in-range bounds, swaps bounds given in reverse, clamps an end past the string, and is empty when both bounds lie on the same side outside the string |
| IsoTime.IsoDateFourDigitYear | database/event.model.ts:133 | for years 0 to 9999 the stored date has the form `YYYY-MM-DD` and its fields read back as the instant's year, month and day |
| IsoTime.IsoDateExtendedYear | database/event.model.ts:133 | for other years the stored date has 13 characters and is not `YYYY-MM-DD` |
| IsoTime.IsoClockFourDigitYear | database/event.model.ts:143 | for years 0 to 9999, `substring(11, 16)` of `toISOString` is the instant's `HH:MM` |
| IsoTime.HourMinuteMatches | database/event.model.ts:139-143 | every hour below 24 and minute below 60, written as the hook writes it, passes `^([01][0-9]\|2[0-3]):[0-5][0-9]$` and reads back as the same hour and minute |
| IsoTime.MatchesAreHourMinutes | database/event.model.ts:139-140 | every string that passes the `HH:MM` test is some hour below 24 and minute below 60 written in that form |
| IsoTime.IsHourMinute | database/event.model.ts:139-140 | the test `^([01][0-9]\|2[0-3]):[0-5][0-9]$` on five characters; `IsoTime.HourMinuteMatches` and `IsoTime.MatchesAreHourMinutes` show that it accepts exactly the zero-padded hours below 24 and minutes below 60 |
| IsoTime.DigitsRoundTrip | database/event.model.ts:133 | a zero-padded decimal field reads back as its number whenever the number fits the width |
| EventModel.ApplySetters | database/event.model.ts:30-107 | title, description, overview, venue, location, audience and organizer are stored trimmed; the slug lower-cased; date, time, mode, image, agenda and tags as given |
| EventModel.ApplySettersIdempotent | database/event.model.ts:30-107 | assigning the setters' output again changes no field |
| EventModel.InvalidFields | database/event.model.ts:30-107 | a path is reported if and only if its validator rejects the document: `required`, title `minlength` 3 counted in UTF-16 code units, the `mode` enum, non-empty agenda and tags |
| EventModel.PreSave | database/event.model.ts:118-147 | the slug is re-derived exactly when the title was modified or the slug is empty, and otherwise kept; a modified readable date becomes the instant's calendar day, any other date is kept; the time is kept when unmodified, already `HH:MM`, or unreadable, and otherwise becomes `substring(11, 16)` of the instant's ISO string; no other field changes |
| EventModel.PreSaveStable | database/event.model.ts:118-147 | running the hook again with nothing modified changes nothing |
| EventModel.PreSaveDateNormalized | database/event.model.ts:129-135 | a modified date that cannot be read is stored as given; one read on a year from 0 to 9999 is stored as `YYYY-MM-DD` |
| EventModel.PreSaveTimeNormalized | database/event.model.ts:137-146 | a modified time is afterwards `HH:MM`, or it is unchanged because it could not be read; a modified, readable, non-`HH:MM` time becomes the parsed instant's hour and minute, zero-padded |
| EventModel.PreSaveKeepsValid | database/event.model.ts:66-73 | what the hook writes after validation still passes every validator |
| EventModel.SaveEvent | database/event.model.ts:36-41 | a save commits exactly when the validators pass and no other Event holds the derived slug; a refused save leaves the store unchanged and reports the failing paths or the duplicate slug |
| EventModel.SlugTaken | database/event.model.ts:37-40 | the unique index on `slug` refuses a write exactly when an Event under another id already holds the same slug; the empty slug counts, since every saved Event has one |
| EventModel.SaveEventKeepsConsistent | database/event.model.ts:36-41 | committed saves keep slugs unique and every stored Event valid |
| EventModel.CreateEvent | database/event.model.ts:28-147 | `Event.create` is refused with the failing paths whenever a validator rejects the input after its setters; a refusal leaves the store unchanged; a commit adds the new id and leaves other Events alone |
| EventModel.RawValidationRules | database/event.model.ts:30-107 | on the fields as sent, the title is rejected exactly when shorter than 3 UTF-16 code units once trimmed, the mode exactly when not online/offline/hybrid, agenda and tags exactly when empty, the description exactly when blank once trimmed, image, date and time exactly when empty |
| EventModel.RawBlankRules | database/event.model.ts:45-100 | on the fields as sent, overview, venue, location, audience and organizer are each rejected exactly when blank once trimmed |
| EventModel.WideTitleAccepted | database/event.model.ts:34 | a title of two characters outside the Basic Multilingual Plane (four UTF-16 code units) passes `minlength: 3` |
| EventModel.CreateEventCommits | database/event.model.ts:120-127 | creation commits if and only if the validators pass and the title's slug is free; the new Event stores the trimmed title and `Slugify` of the title |
| EventModel.EmptySlugsCollide | database/event.model.ts:36-41 | a second title without letters or digits is refused as a duplicate empty slug |
| Email.NormalizeEmail | database/booking.model.ts:27-28 | the stored email has no upper-case ASCII letter and no leading or trailing whitespace, and it is one contiguous piece of the lower-cased input with only whitespace cut from its two ends |
| Email.NormalizeOrderIrrelevant | database/booking.model.ts:27-28 | lower-casing then trimming equals trimming then lower-casing |
| Email.NormalizeIdempotent | database/booking.model.ts:27-28 | normalizing a normalized email changes nothing |
| Email.EmailValidIffRegex | database/booking.model.ts:30-33 | the validator (no whitespace; a single `@` with a non-empty local part; a dot inside the domain, neither its first nor its last character) accepts exactly the language of `^[^\s@]+@[^\s@]+\.[^\s@]+$` |
| Email.IsValidEmail | database/booking.model.ts:30-33 | the email validator as plain conditions: no whitespace, a first `@` with something before it, no second `@`, and a dot strictly inside the domain; `Email.EmailValidIffRegex` shows it accepts exactly the regular expression's language |
| BookingModel.Violations | database/booking.model.ts:19-37 | the booking validators: `required` on `eventId` fails exactly when it is missing, and the email contributes exactly the violation `BookingModel.EmailViolation` reports (missing, blank or malformed), nothing else |
| BookingModel.EmailViolation | database/booking.model.ts:24-37 | a missing or blank email fails `required`; a non-blank one fails the format test if and only if the validator rejects its normalized form |
| BookingModel.SaveBooking | database/booking.model.ts:51-60 | a save commits exactly when validation passes and the Event exists or the lookup is skipped (an existing booking with unchanged `eventId`); a refusal leaves both collections unchanged; a commit stores the normalized email |
| BookingModel.ChecksEvent | database/booking.model.ts:52 | the hook looks the Event up exactly when the booking is new (its id not yet stored) or its `eventId` differs from the stored one |
| BookingModel.MissingFieldsRefused | database/booking.model.ts:19-37 | a booking without `eventId`, without an email, or with a blank or malformed email is refused |
| BookingModel.MissingEventRefused | database/booking.model.ts:52-58 | a new or re-pointed booking naming a missing Event is refused with that id and nothing is written |
| BookingModel.ResaveSkipsCheck | database/booking.model.ts:52 | re-saving a booking with its `eventId` unchanged succeeds even when the Event is gone |
| BookingModel.StoredEmailNormalized | database/booking.model.ts:27-33 | the stored email is the input lower-cased and trimmed, and it passes the validator |
| BookingModel.SaveBookingKeepsRefIntegrity | database/booking.model.ts:51-60 | booking saves keep every booking pointing at an existing Event |
| BookingModel.SaveBookingKeepsEmailsNormalized | database/booking.model.ts:24-37 | booking saves keep every stored email normalized and valid |
| BookingModel.SaveEventKeepsRefIntegrity | database/booking.model.ts:51-60 | Event saves never remove an Event, so booking references stay valid |
| EventsRoute.IncludesIffOccurs | app/api/events/route.ts:13-19 | the substring scan succeeds if and only if the needle occurs at some position |
| EventsRoute.Includes | app/api/events/route.ts:13-19 | `includes` scans every start position; `EventsRoute.IncludesIffOccurs` shows it is true exactly when the needle occurs somewhere in the header |
| EventsRoute.Classify | app/api/events/route.ts:10-20 | JSON if and only if the header contains `application/json`; form if and only if it does not but contains `multipart/form-data` or `application/x-www-form-urlencoded` |
| EventsRoute.JsonTakesPrecedence | app/api/events/route.ts:13 | a header containing `application/json` is JSON whatever else it contains |
| EventsRoute.FromEntries | app/api/events/route.ts:21-22 | the field map has exactly the entries' keys, and each key maps to the value of its last entry |
| EventsRoute.RepeatedKeyLastWins | app/api/events/route.ts:22 | of two entries with the same key the later one wins |
| EventsRoute.Create | app/api/events/route.ts:34-50 | `Event.create` is called with the payload; 201 if it returns, 500 if it throws |
| EventsRoute.Post | app/api/events/route.ts:5-52 | the status is 201, 400 or 500; 201 exactly when `Event.create` was called and returned; 400 exactly when connected with an unsupported content type, and then `create` is not called; 500 on connection failure, and 500 without calling `create` when the chosen body decoder throws; the payload is the parsed JSON or the form entries as a last-wins map |
| EventsRoute.MissingHeaderRejected | app/api/events/route.ts:10 | once the database is connected, a request without `Content-Type` is answered 400 and `create` is not called |
| EventsRoute.CreateFailureIsServerError | app/api/events/route.ts:42-50 | a failing `Event.create`, validation errors included, is answered 500 |

## Left out

- `lib/mongodb.ts` (the cached connection shared by concurrent callers) is not modelled. Whether `connectDB()` succeeded is the `connected` parameter of `EventsRoute.Post`.
- `components/BookEvent.tsx` (UI state) and the GET handler in `app/api/events/[slug]/route.ts` are not part of this model.
- JavaScript `Date` parsing, including its dependence on the host time zone, is the parameter `parse` of the hook. It returns `None` for an invalid date. Only the formatting done by `toISOString` is modelled.
- Text.Lower: `toLowerCase` is modelled on ASCII only, because the full Unicode case mapping is a large table. The stored email therefore differs from the real one for any non-ASCII capital (`JOSÉ@x.io` is stored as `josé@x.io` by the program, as `josÉ@x.io` by the model). The slug differs only for the non-ASCII letters JavaScript maps to ASCII ones (`İ` to `i` plus a combining dot, the Kelvin sign to `k`), since the `[^\w\s-]` rewrite deletes every other non-ASCII character.
- Mongoose dirty-tracking, `timestamps`, index creation and `ObjectId` generation are not modelled. Modification is given as flags or read off the store. Ids are naturals, and `CreateEvent` requires a fresh one.
- Casting an `eventId` string to an `ObjectId` (a `CastError` for malformed ids) is not modelled. Booking ids arrive already cast.
- Two concurrent creates with the same slug are not modelled; the model is sequential. The unique index decides between them.
- `EventsRoute.Post` treats `Event.create` as a parameter that succeeds or fails. Casting a JSON or form payload into an Event document is not connected to `EventModel.CreateEvent`. Form entries are pairs of strings; `File` values are not modelled.
- Response bodies (messages and the created Event) and `console.error` logging are not modelled, only status codes.
- EventModel.PreSaveTimeNormalized: assumes the instant read from `1970-01-01T<time>` has a year between 0 and 9999, which the fixed date prefix ensures in JavaScript but the abstract parser does not promise.
- EventModel.PreSaveDateNormalized: states the `YYYY-MM-DD` form only for years 0 to 9999, because `toISOString` writes other years with a sign and six digits.

=== FILE: booking.dfy ===
/** The Booking schema and its pre-save hook: the referenced Event must exist
    whenever a booking is new or its `eventId` changes. */
module BookingModel {
  import opened Wrappers
  import opened Text
  import opened Email
  import opened EventModel

  datatype Booking = Booking(eventId: ObjectId, email: string)

  /** The fields a save assigns; `None` for a field left out. */
  datatype BookingInput = BookingInput(eventId: Option<ObjectId>, email: Option<string>)

  /** Both collections. `findById` on the Event collection is a lookup in `events`. */
  datatype Db = Db(events: map<ObjectId, EventDoc>, bookings: map<ObjectId, Booking>)

  /** The first failing validator of each path; a missing value stops its path at
      `required`. */
  datatype Violation = MissingEventId | MissingEmail | MalformedEmail

  datatype BookingError =
    | InvalidBooking(violations: set<Violation>)
    | EventNotFound(eventId: ObjectId)

  /** The failing validator of the email path, if any: `required` on a missing or
      blank value, otherwise the format test. */
  function EmailViolation(email: Option<string>): (v: Option<Violation>)
    ensures v == Some(MissingEmail) <==> email.None? || NormalizeEmail(email.value) == ""
    ensures v == Some(MalformedEmail) <==>
              email.Some? && NormalizeEmail(email.value) != "" && !IsValidEmail(NormalizeEmail(email.value))
    ensures v.None? <==> email.Some? && IsValidEmail(NormalizeEmail(email.value))
  {
    match email
    case None => Some(MissingEmail)
    case Some(raw) =>
      var e := NormalizeEmail(raw);
      if e == "" then Some(MissingEmail)
      else if !IsValidEmail(e) then Some(MalformedEmail)
      else None
  }

  /** The validators of the booking paths, run on the email after its setters. */
  function Violations(input: BookingInput): (v: set<Violation>)
    ensures MissingEventId in v <==> input.eventId.None?
    ensures v - {MissingEventId} == (match EmailViolation(input.email)
                                     case None => {} case Some(e) => {e})
  {
    var idErrs := if input.eventId.None? then {MissingEventId} else {};
    var emailErrs := match EmailViolation(input.email) case None => {} case Some(e) => {e};
    idErrs + emailErrs
  }

  /** Whether the hook looks the Event up: on a new booking, or when the saved
      booking's `eventId` differs from the stored one. */
  predicate ChecksEvent(db: Db, id: ObjectId, eventId: ObjectId) {
    id !in db.bookings || db.bookings[id].eventId != eventId
  }

  /** `save()` of the booking `id` with the fields of `input`: validation, then the
      pre-save hook, then the write. */
  function SaveBooking(db: Db, id: ObjectId, input: BookingInput): (r: Saved<Db, BookingError>)
    ensures !r.Committed() ==> r.state == db
    ensures r.state.events == db.events
    ensures Violations(input) != {} ==> r.error == Some(InvalidBooking(Violations(input)))
    ensures r.Committed() <==>
              && Violations(input) == {}
              && (input.eventId.value in db.events || !ChecksEvent(db, id, input.eventId.value))
    ensures r.Committed() ==>
              r.state.bookings == db.bookings[id := Booking(input.eventId.value,
                                                            NormalizeEmail(input.email.value))]
  {
    var errs := Violations(input);
    if errs != {} then Saved(db, Some(InvalidBooking(errs)))
    else
      var eventId := input.eventId.value;
      if ChecksEvent(db, id, eventId) && eventId !in db.events then
        Saved(db, Some(EventNotFound(eventId)))
      else
        Saved(db.(bookings := db.bookings[id := Booking(eventId, NormalizeEmail(input.email.value))]),
              None)
  }

  /* ---------------- invariants and lemmas ---------------- */

  /** Every booking names an Event that exists. */
  ghost predicate RefIntegrity(db: Db) {
    forall b :: b in db.bookings ==> db.bookings[b].eventId in db.events
  }

  /** Every stored email is in normal form and passes the validator. */
  ghost predicate EmailsNormalized(db: Db) {
    forall b :: b in db.bookings ==>
      NormalizeEmail(db.bookings[b].email) == db.bookings[b].email
      && IsValidEmail(db.bookings[b].email)
  }

  /** A new booking, or one moved to another Event, whose Event is missing is
      refused, and nothing is written. */
  lemma MissingEventRefused(db: Db, id: ObjectId, input: BookingInput)
    ensures && Violations(input) == {}
            && ChecksEvent(db, id, input.eventId.value)
            && input.eventId.value !in db.events
            ==> SaveBooking(db, id, input) == Saved(db, Some(EventNotFound(input.eventId.value)))
  {
  }

  /** A booking without an `eventId`, or without an email once trimmed, is refused
      by `required`; so is an email the format test rejects. */
  lemma MissingFieldsRefused(db: Db, id: ObjectId, input: BookingInput)
    ensures input.eventId.None? ==>
              SaveBooking(db, id, input).error.Some?
              && SaveBooking(db, id, input).error.value.InvalidBooking?
              && MissingEventId in SaveBooking(db, id, input).error.value.violations
    ensures input.email.None? || NormalizeEmail(input.email.value) == "" ==>
              SaveBooking(db, id, input).error.Some?
              && SaveBooking(db, id, input).error.value.InvalidBooking?
              && MissingEmail in SaveBooking(db, id, input).error.value.violations
    ensures input.email.Some? && !IsValidEmail(NormalizeEmail(input.email.value)) ==>
              !SaveBooking(db, id, input).Committed()
  {
    if input.email.None? || NormalizeEmail(input.email.value) == "" {
      assert MissingEmail in Violations(input);
    }
  }

  /** Saving a booking again without changing its `eventId` does not look the Event
      up, so it succeeds even when that Event is gone. */
  lemma ResaveSkipsCheck(db: Db, id: ObjectId, input: BookingInput)
    ensures && Violations(input) == {}
            && id in db.bookings && db.bookings[id].eventId == input.eventId.value
            ==> SaveBooking(db, id, input).Committed()
  {
  }

  /** The stored email is the given one, lower-cased and trimmed. */
  lemma StoredEmailNormalized(db: Db, id: ObjectId, input: BookingInput)
    ensures SaveBooking(db, id, input).Committed() ==>
      var stored := SaveBooking(db, id, input).state.bookings[id];
      && stored.email == NormalizeEmail(input.email.value)
      && stored.email == Lower(Trim(input.email.value))
      && IsValidEmail(stored.email)
  {
    if input.email.Some? {
      NormalizeOrderIrrelevant(input.email.value);
    }
  }

  /** Booking saves keep every reference pointing at an existing Event. */
  lemma SaveBookingKeepsRefIntegrity(db: Db, id: ObjectId, input: BookingInput)
    requires RefIntegrity(db)
    ensures RefIntegrity(SaveBooking(db, id, input).state)
  {
  }

  /** Booking saves keep every stored email normalized and valid. */
  lemma SaveBookingKeepsEmailsNormalized(db: Db, id: ObjectId, input: BookingInput)
    requires EmailsNormalized(db)
    ensures EmailsNormalized(SaveBooking(db, id, input).state)
  {
    var r := SaveBooking(db, id, input);
    if r.Committed() {
      var e := NormalizeEmail(input.email.value);
      NormalizeIdempotent(input.email.value);
      assert IsValidEmail(e) by {
        assert Violations(input) == {};
      }
      var stored := db.bookings[id := Booking(input.eventId.value, e)];
      assert r.state.bookings == stored;
      forall b | b in stored
        ensures NormalizeEmail(stored[b].email) == stored[b].email && IsValidEmail(stored[b].email)
      {
        if b != id {
          assert stored[b] == db.bookings[b];
        }
      }
    }
  }

  /** Event saves never remove an Event, so they keep booking references valid. */
  lemma SaveEventKeepsRefIntegrity(db: Db, id: ObjectId, doc: EventDoc, m: Modified,
                                   parse: DateParser)
    requires RefIntegrity(db)
    ensures RefIntegrity(db.(events := SaveEvent(db.events, id, doc, m, parse).state))
  {
  }
}

=== FILE: email.dfy ===
/** The Booking email path: the `lowercase` and `trim` setters and the validator
    `/^[^\s@]+@[^\s@]+\.[^\s@]+$/`. */
module Email {
  import opened Wrappers
  import opened Text

  /** What the setters make of an assigned email: lower-cased, then trimmed. */
  function NormalizeEmail(raw: string): (r: string)
    ensures NoneOf(r, IsUpper)
    ensures |r| > 0 ==> !IsJsSpace(r[0]) && !IsJsSpace(r[|r| - 1])
    ensures exists i, j :: 0 <= i <= j <= |raw| && r == Lower(raw)[i..j]
                           && RemovedOnlyEdges(Lower(raw), i, j, IsJsSpace)
  {
    assert forall c :: c in Lower(raw) ==> !IsUpper(c);
    TrimRemovesOnlyEdges(Lower(raw));
    Trim(Lower(raw))
  }

  /** `[^\s@]`. */
  predicate IsPlain(c: char) { !IsJsSpace(c) && c != '@' }

  /** Position of the first `c` in `s`. */
  function IndexOf(s: string, c: char): (r: Option<nat>)
    ensures r.None? <==> c !in s
    ensures r.Some? ==> r.value < |s| && s[r.value] == c && c !in s[..r.value]
  {
    if s == [] then None
    else if s[0] == c then Some(0)
    else
      match IndexOf(s[1..], c)
      case None => None
      case Some(i) =>
        assert s[..i + 1] == [s[0]] + s[1..][..i];
        Some(i + 1)
  }

  /** A `.` that is neither the first nor the last character. */
  predicate HasInnerDot(domain: string) {
    |domain| >= 3 && '.' in domain[1..|domain| - 1]
  }

  /** The validator, read as plain conditions: no whitespace, a single `@` with
      something before it, and a dot strictly inside the part after it. */
  predicate IsValidEmail(s: string) {
    && NoneOf(s, IsJsSpace)
    && match IndexOf(s, '@')
       case None => false
       case Some(at) => at > 0 && '@' !in s[at + 1..] && HasInnerDot(s[at + 1..])
  }

  ghost predicate AllPlain(s: string) {
    forall i :: 0 <= i < |s| ==> IsPlain(s[i])
  }

  /** `s` splits as `local@middle.last` around the `@` at `at` and the dot at `dot`,
      each of the three parts a non-empty run of `[^\s@]`. */
  ghost predicate RegexSplit(s: string, at: int, dot: int) {
    && 0 < at && at + 1 < dot && dot + 1 < |s|
    && s[at] == '@' && s[dot] == '.'
    && AllPlain(s[..at]) && AllPlain(s[at + 1..dot]) && AllPlain(s[dot + 1..])
  }

  /** The language of `^[^\s@]+@[^\s@]+\.[^\s@]+$`. */
  ghost predicate MatchesEmailRegex(s: string) {
    exists at, dot :: RegexSplit(s, at, dot)
  }

  /* ---------------- lemmas ---------------- */

  /** The validator accepts exactly the strings of the regular expression's language:
      one `@`, no whitespace, a non-empty local part, and a domain with a dot that
      is neither its first nor its last character. */
  lemma EmailValidIffRegex(s: string)
    ensures IsValidEmail(s) <==> MatchesEmailRegex(s)
  {
    if IsValidEmail(s) {
      ValidHasSplit(s);
    }
    if MatchesEmailRegex(s) {
      var at, dot :| RegexSplit(s, at, dot);
      SplitIsValid(s, at, dot);
    }
  }

  lemma ValidHasSplit(s: string)
    requires IsValidEmail(s)
    ensures MatchesEmailRegex(s)
  {
    var at := IndexOf(s, '@').value;
    var d := s[at + 1..];
    var inner := d[1..|d| - 1];
    var k :| 0 <= k < |inner| && inner[k] == '.';
    var dot := at + 2 + k;
    assert s[dot] == '.';
    assert AllPlain(s[..at]) by {
      forall i | 0 <= i < at ensures IsPlain(s[..at][i]) {
        assert s[..at][i] in s[..at];
      }
    }
    assert forall i :: at < i < |s| ==> s[i] != '@' by {
      forall i | at < i < |s| ensures s[i] != '@' {
        assert s[i] == d[i - at - 1];
      }
    }
    assert RegexSplit(s, at, dot);
  }

  lemma SplitIsValid(s: string, at: int, dot: int)
    requires RegexSplit(s, at, dot)
    ensures IsValidEmail(s)
  {
    assert forall i :: 0 <= i < |s| && i != at ==> IsPlain(s[i]) by {
      forall i | 0 <= i < |s| && i != at ensures IsPlain(s[i]) {
        if i < at {
          assert s[i] == s[..at][i];
        } else if i < dot {
          assert s[i] == s[at + 1..dot][i - at - 1];
        } else if i > dot {
          assert s[i] == s[dot + 1..][i - dot - 1];
        }
      }
    }
    assert '@' !in s[..at];
    assert IndexOf(s, '@') == Some(at);
    var d := s[at + 1..];
    assert d[dot - at - 1] == '.';
    assert d[1..|d| - 1][dot - at - 2] == '.';
  }

  /** The order of the two setters does not matter. */
  lemma NormalizeOrderIrrelevant(raw: string)
    ensures NormalizeEmail(raw) == Lower(Trim(raw))
  {
    TrimLowerCommute(raw);
  }

  /** Normalizing a stored email again leaves it as it is. */
  lemma NormalizeIdempotent(raw: string)
    ensures NormalizeEmail(NormalizeEmail(raw)) == NormalizeEmail(raw)
  {
    var r := NormalizeEmail(raw);
    LowerNoUpper(r);
    StripNoEdges(r, IsJsSpace);
  }
}

=== FILE: event.dfy ===
/** The Event schema: field setters and validators, the pre-save hook that derives
    the slug and normalizes date and time, and the unique index on `slug`. */
module EventModel {
  import opened Wrappers
  import opened Text
  import opened Slug
  import opened IsoTime

  /** Document identifiers, assigned by the database. */
  type ObjectId = nat

  /** An Event document. A field the caller leaves out is the empty string or the
      empty list: the schema treats both the same way. */
  datatype EventDoc = EventDoc(
    title: string,
    slug: string,
    description: string,
    overview: string,
    image: string,
    venue: string,
    location: string,
    date: string,
    time: string,
    mode: string,
    audience: string,
    agenda: seq<string>,
    organizer: string,
    tags: seq<string>)

  /** The schema paths that carry validators. */
  datatype Field =
    | Title | Description | Overview | Image | Venue | Location
    | Date | Time | Mode | Audience | Agenda | Organizer | Tags

  const AllFields: set<Field> :=
    {Title, Description, Overview, Image, Venue, Location, Date, Time, Mode,
     Audience, Agenda, Organizer, Tags}

  const Modes: set<string> := {"online", "offline", "hybrid"}

  /** Which paths a save has touched. A new document has touched every path it sets. */
  datatype Modified = Modified(title: bool, date: bool, time: bool)

  const AllModified := Modified(true, true, true)
  const NoneModified := Modified(false, false, false)

  /** `new Date(s)` followed by the `isNaN(getTime())` test: `None` for an invalid
      date. How a string is read, including the host time zone, lies outside the
      model, so the hook takes it as a parameter. */
  type DateParser = string -> Option<Instant>

  /** The setters that run when a field is assigned: `trim: true` on the text
      fields and `lowercase: true` on `slug`. */
  function ApplySetters(raw: EventDoc): (doc: EventDoc)
    ensures doc.title == Trim(raw.title) && doc.slug == Lower(raw.slug)
    ensures doc.description == Trim(raw.description) && doc.overview == Trim(raw.overview)
    ensures doc.venue == Trim(raw.venue) && doc.location == Trim(raw.location)
    ensures doc.audience == Trim(raw.audience) && doc.organizer == Trim(raw.organizer)
    ensures doc.image == raw.image && doc.date == raw.date && doc.time == raw.time
    ensures doc.mode == raw.mode && doc.agenda == raw.agenda && doc.tags == raw.tags
  {
    raw.(title := Trim(raw.title), slug := Lower(raw.slug),
         description := Trim(raw.description), overview := Trim(raw.overview),
         venue := Trim(raw.venue), location := Trim(raw.location),
         audience := Trim(raw.audience), organizer := Trim(raw.organizer))
  }

  lemma AllFieldsComplete()
    ensures forall f: Field :: f in AllFields
  {
    forall f: Field ensures f in AllFields {
      match f
      case Title => case Description => case Overview => case Image =>
      case Venue => case Location => case Date => case Time => case Mode =>
      case Audience => case Agenda => case Organizer => case Tags =>
    }
  }

  /** The validators of one path: `required` on every path, `minlength: 3` on the
      title (counted in UTF-16 code units, as JavaScript's `length` counts), the
      `enum` on mode, and the non-empty validators on agenda and tags. */
  predicate FieldValid(doc: EventDoc, f: Field) {
    match f
    case Title => JsLength(doc.title) >= 3
    case Description => doc.description != ""
    case Overview => doc.overview != ""
    case Image => doc.image != ""
    case Venue => doc.venue != ""
    case Location => doc.location != ""
    case Date => doc.date != ""
    case Time => doc.time != ""
    case Mode => doc.mode in Modes
    case Audience => doc.audience != ""
    case Agenda => |doc.agenda| > 0
    case Organizer => doc.organizer != ""
    case Tags => |doc.tags| > 0
  }

  /** The paths whose validators reject `doc`. */
  function InvalidFields(doc: EventDoc): (errs: set<Field>)
    ensures forall f :: f in errs <==> !FieldValid(doc, f)
  {
    AllFieldsComplete();
    set f | f in AllFields && !FieldValid(doc, f)
  }

  /** The pre-save hook. */
  function PreSave(doc: EventDoc, m: Modified, parse: DateParser): (r: EventDoc)
    ensures m.title || doc.slug == "" ==> r.slug == Slugify(doc.title)
    ensures !m.title && doc.slug != "" ==> r.slug == doc.slug
    ensures !m.date || parse(doc.date).None? ==> r.date == doc.date
    ensures m.date && parse(doc.date).Some? ==> r.date == CalendarDay(parse(doc.date).value)
    ensures (!m.time || IsHourMinute(doc.time) || parse("1970-01-01T" + doc.time).None?)
              ==> r.time == doc.time
    ensures (m.time && !IsHourMinute(doc.time) && parse("1970-01-01T" + doc.time).Some?)
              ==> r.time == IsoClock(parse("1970-01-01T" + doc.time).value)
    ensures r == doc.(slug := r.slug, date := r.date, time := r.time)
  {
    var slug := if m.title || doc.slug == "" then Slugify(doc.title) else doc.slug;
    var date :=
      if m.date then
        match parse(doc.date)
        case Some(t) => IsoDateIsCalendarDay(t); IsoDate(t)
        case None => doc.date
      else doc.date;
    var time :=
      if m.time && !IsHourMinute(doc.time) then
        match parse("1970-01-01T" + doc.time)
        case Some(t) => IsoClock(t)
        case None => doc.time
      else doc.time;
    doc.(slug := slug, date := date, time := time)
  }

  /** Whether an Event other than `id` already holds `slug`. Every saved Event has a
      slug (the hook always assigns one), so the index's `sparse` option exempts
      nothing: the empty slug is a value like any other. */
  predicate SlugTaken(events: map<ObjectId, EventDoc>, id: ObjectId, slug: string) {
    exists other :: other in events && other != id && events[other].slug == slug
  }

  datatype EventError =
    | ValidationFailed(fields: set<Field>)
    | DuplicateSlug(slug: string)

  /** `save()` of the Event `doc` under `id`: validation, then the pre-save hook,
      then the write, which the unique index on `slug` can refuse. */
  function SaveEvent(events: map<ObjectId, EventDoc>, id: ObjectId, doc: EventDoc,
                     m: Modified, parse: DateParser)
    : (r: Saved<map<ObjectId, EventDoc>, EventError>)
    ensures !r.Committed() ==> r.state == events
    ensures InvalidFields(doc) != {} ==> r.error == Some(ValidationFailed(InvalidFields(doc)))
    ensures (InvalidFields(doc) == {} && SlugTaken(events, id, PreSave(doc, m, parse).slug))
              ==> r.error == Some(DuplicateSlug(PreSave(doc, m, parse).slug))
    ensures r.Committed() <==>
              InvalidFields(doc) == {} && !SlugTaken(events, id, PreSave(doc, m, parse).slug)
    ensures r.Committed() ==> r.state == events[id := PreSave(doc, m, parse)]
  {
    var errs := InvalidFields(doc);
    if errs != {} then Saved(events, Some(ValidationFailed(errs)))
    else
      var stored := PreSave(doc, m, parse);
      if SlugTaken(events, id, stored.slug) then Saved(events, Some(DuplicateSlug(stored.slug)))
      else Saved(events[id := stored], None)
  }

  /** `Event.create(raw)`: a new document under a fresh identifier, every path it
      sets counting as modified. */
  function CreateEvent(events: map<ObjectId, EventDoc>, id: ObjectId, raw: EventDoc,
                       parse: DateParser)
    : (r: Saved<map<ObjectId, EventDoc>, EventError>)
    requires id !in events
    ensures !r.Committed() ==> r.state == events
    ensures InvalidFields(ApplySetters(raw)) != {} ==>
              r.error == Some(ValidationFailed(InvalidFields(ApplySetters(raw))))
    ensures r.Committed() ==> id in r.state && r.state == events[id := r.state[id]]
  {
    SaveEvent(events, id, ApplySetters(raw), AllModified, parse)
  }

  /** On the fields as the caller sends them, before the setters: the title is
      rejected exactly when it is shorter than three characters once trimmed, the
      mode exactly when it is not online, offline or hybrid, and the agenda and the
      tags exactly when they are empty. With `CreateEvent`'s contract this says that
      creation refuses each of these. */
  lemma RawValidationRules(raw: EventDoc)
    ensures Title in InvalidFields(ApplySetters(raw)) <==> JsLength(Trim(raw.title)) < 3
    ensures Mode in InvalidFields(ApplySetters(raw)) <==> raw.mode !in Modes
    ensures Agenda in InvalidFields(ApplySetters(raw)) <==> raw.agenda == []
    ensures Tags in InvalidFields(ApplySetters(raw)) <==> raw.tags == []
    ensures Description in InvalidFields(ApplySetters(raw)) <==> Trim(raw.description) == ""
    ensures Image in InvalidFields(ApplySetters(raw)) <==> raw.image == ""
    ensures Date in InvalidFields(ApplySetters(raw)) <==> raw.date == ""
    ensures Time in InvalidFields(ApplySetters(raw)) <==> raw.time == ""
  {
  }

  /** On the fields as the caller sends them: each of the other trimmed text fields
      is rejected exactly when nothing is left of it once trimmed. */
  lemma RawBlankRules(raw: EventDoc)
    ensures Overview in InvalidFields(ApplySetters(raw)) <==> Trim(raw.overview) == ""
    ensures Venue in InvalidFields(ApplySetters(raw)) <==> Trim(raw.venue) == ""
    ensures Location in InvalidFields(ApplySetters(raw)) <==> Trim(raw.location) == ""
    ensures Audience in InvalidFields(ApplySetters(raw)) <==> Trim(raw.audience) == ""
    ensures Organizer in InvalidFields(ApplySetters(raw)) <==> Trim(raw.organizer) == ""
  {
  }

  /** A title of two characters outside the Basic Multilingual Plane is four UTF-16
      code units long, so `minlength: 3` accepts it. */
  lemma WideTitleAccepted(raw: EventDoc)
    requires raw.title == "\U{1F389}\U{1F389}"
    ensures Title !in InvalidFields(ApplySetters(raw))
  {
    StripNoEdges(raw.title, IsJsSpace);
    assert Trim(raw.title) == raw.title;
    assert raw.title[1..] == "\U{1F389}";
  }

  /** Assigning the setters' output again changes nothing. */
  lemma ApplySettersIdempotent(raw: EventDoc)
    ensures ApplySetters(ApplySetters(raw)) == ApplySetters(raw)
  {
    TrimIdempotent(raw.title);
    TrimIdempotent(raw.description);
    TrimIdempotent(raw.overview);
    TrimIdempotent(raw.venue);
    TrimIdempotent(raw.location);
    TrimIdempotent(raw.audience);
    TrimIdempotent(raw.organizer);
    LowerIdempotent(raw.slug);
  }

  /** Creation succeeds exactly when the validators accept the input and no Event
      holds the slug its title derives; the new Event stores the trimmed title and
      that slug. */
  lemma CreateEventCommits(events: map<ObjectId, EventDoc>, id: ObjectId, raw: EventDoc,
                           parse: DateParser)
    requires id !in events
    ensures var r := CreateEvent(events, id, raw, parse);
      && (r.Committed() <==>
            InvalidFields(ApplySetters(raw)) == {} && !SlugTaken(events, id, Slugify(raw.title)))
      && (r.Committed() ==> r.state[id].slug == Slugify(raw.title)
                            && r.state[id].title == Trim(raw.title))
  {
    var doc := ApplySetters(raw);
    SlugIgnoresTitleTrim(raw.title);
    var stored := PreSave(doc, AllModified, parse);
    assert stored.slug == Slugify(raw.title) && stored.title == Trim(raw.title);
  }

  /* ---------------- invariants and lemmas ---------------- */

  /** No two Events share a slug. */
  ghost predicate UniqueSlugs(events: map<ObjectId, EventDoc>) {
    forall a, b :: a in events && b in events && a != b ==> events[a].slug != events[b].slug
  }

  /** What every stored Event satisfies: its validators accept it and no other
      Event shares its slug. */
  ghost predicate Consistent(events: map<ObjectId, EventDoc>) {
    && UniqueSlugs(events)
    && forall id :: id in events ==> InvalidFields(events[id]) == {}
  }

  /** The hook runs after validation, yet what it writes still passes validation:
      it never empties the date or time and does not touch the other validated paths. */
  lemma PreSaveKeepsValid(doc: EventDoc, m: Modified, parse: DateParser)
    requires InvalidFields(doc) == {}
    ensures InvalidFields(PreSave(doc, m, parse)) == {}
  {
    var r := PreSave(doc, m, parse);
    assert r == doc.(slug := r.slug, date := r.date, time := r.time);
    assert r.date != "" by {
      assert FieldValid(doc, Date);
      if m.date && parse(doc.date).Some? {
        assert |CalendarDay(parse(doc.date).value)| >= 10;
      }
    }
    assert r.time != "" by {
      assert FieldValid(doc, Time);
      var p := parse("1970-01-01T" + doc.time);
      if m.time && !IsHourMinute(doc.time) && p.Some? {
        assert |ToIsoString(p.value)| >= 16;
      }
    }
    forall f ensures FieldValid(r, f) {
      assert FieldValid(doc, f);
    }
  }

  /** Every committed save keeps the store consistent. */
  lemma SaveEventKeepsConsistent(events: map<ObjectId, EventDoc>, id: ObjectId,
                                 doc: EventDoc, m: Modified, parse: DateParser)
    requires Consistent(events)
    ensures Consistent(SaveEvent(events, id, doc, m, parse).state)
  {
    var r := SaveEvent(events, id, doc, m, parse);
    if r.Committed() {
      PreSaveKeepsValid(doc, m, parse);
    }
  }

  /** Saving again without touching title, date or time changes nothing: the slug is
      not derived a second time unless it is empty, and then it derives the same. */
  lemma PreSaveStable(doc: EventDoc, m: Modified, parse: DateParser)
    ensures PreSave(PreSave(doc, m, parse), NoneModified, parse) == PreSave(doc, m, parse)
  {
  }

  /** After the hook a modified time either has the form `HH:MM` or is the value
      given, left as it was because it could not be read as a time. The second case
      also needs the read instant's year in 0 to 9999, which holds for the
      `1970-01-01T` prefix the hook adds. */
  lemma PreSaveTimeNormalized(doc: EventDoc, m: Modified, parse: DateParser)
    requires m.time
    requires parse("1970-01-01T" + doc.time).Some? ==>
               0 <= parse("1970-01-01T" + doc.time).value.year <= 9999
    ensures IsHourMinute(PreSave(doc, m, parse).time)
            || (PreSave(doc, m, parse).time == doc.time
                && parse("1970-01-01T" + doc.time).None?)
    ensures (!IsHourMinute(doc.time) && parse("1970-01-01T" + doc.time).Some?)
              ==> PreSave(doc, m, parse).time
                  == HourMinute(parse("1970-01-01T" + doc.time).value.hour,
                                parse("1970-01-01T" + doc.time).value.minute)
  {
    var p := parse("1970-01-01T" + doc.time);
    if !IsHourMinute(doc.time) && p.Some? {
      IsoClockFourDigitYear(p.value);
      HourMinuteMatches(p.value.hour, p.value.minute);
    }
  }

  /** After the hook a modified date that could be read, on a year from 0 to 9999,
      has the form `YYYY-MM-DD`; one that could not be read is kept as given. */
  lemma PreSaveDateNormalized(doc: EventDoc, m: Modified, parse: DateParser)
    requires m.date
    ensures parse(doc.date).None? ==> PreSave(doc, m, parse).date == doc.date
    ensures (parse(doc.date).Some? && 0 <= parse(doc.date).value.year <= 9999)
              ==> IsYearMonthDay(PreSave(doc, m, parse).date)
  {
    if parse(doc.date).Some? && 0 <= parse(doc.date).value.year <= 9999 {
      IsoDateIsCalendarDay(parse(doc.date).value);
      IsoDateFourDigitYear(parse(doc.date).value);
    }
  }

  /** Two titles without letters or digits both derive the empty slug, and the
      second one to be created is refused by the unique index. */
  lemma EmptySlugsCollide(events: map<ObjectId, EventDoc>, id: ObjectId, raw: EventDoc,
                          parse: DateParser, other: ObjectId)
    requires id !in events && other in events && events[other].slug == ""
    requires InvalidFields(ApplySetters(raw)) == {}
    requires NoneOf(raw.title, IsAlnum)
    ensures CreateEvent(events, id, raw, parse).error == Some(DuplicateSlug(""))
  {
    SlugEmptyIff(raw.title);
    SlugIgnoresTitleTrim(raw.title);
    assert SlugTaken(events, id, "");
  }
}

=== FILE: isotime.dfy ===
/** What the hook does with a JavaScript `Date` once it has one: the fixed-width
    decimal fields of `toISOString`, the two pieces of that string the hook keeps,
    and the `HH:MM` regular expression it tests times against. Parsing a string
    into a `Date` is not modelled here; it is a parameter of the hook. */
module IsoTime {
  import opened Text

  function Pow10(n: nat): (r: nat)
    ensures r >= 1
  {
    if n == 0 then 1 else 10 * Pow10(n - 1)
  }

  function DigitChar(d: nat): (c: char)
    requires d < 10
    ensures IsDigit(c)
  {
    ('0' as int + d) as char
  }

  /** `n` in exactly `width` decimal digits, padded on the left with zeros; digits
      beyond `width` are dropped. */
  function Digits(n: nat, width: nat): (r: string)
    ensures |r| == width
    ensures forall i :: 0 <= i < |r| ==> IsDigit(r[i])
  {
    if width == 0 then [] else Digits(n / 10, width - 1) + [DigitChar(n % 10)]
  }

  /** The number a string of decimal digits denotes. */
  function DigitsValue(s: string): (n: nat)
    requires forall i :: 0 <= i < |s| ==> IsDigit(s[i])
  {
    if s == [] then 0
    else
      assert IsDigit(s[|s| - 1]);
      DigitsValue(s[..|s| - 1]) * 10 + (s[|s| - 1] as int - '0' as int)
  }

  /** Reading back a padded number gives the number, as long as it fits. */
  lemma {:induction false} DigitsRoundTrip(n: nat, width: nat)
    requires n < Pow10(width)
    ensures DigitsValue(Digits(n, width)) == n
  {
    if width > 0 {
      var d := Digits(n, width);
      assert d[..width - 1] == Digits(n / 10, width - 1);
      assert n / 10 < Pow10(width - 1) by {
        assert n < 10 * Pow10(width - 1);
      }
      DigitsRoundTrip(n / 10, width - 1);
    }
  }

  /** Writing out the value of a digit string in its own width gives the string back. */
  lemma {:induction false} DigitsValueRoundTrip(s: string)
    requires forall i :: 0 <= i < |s| ==> IsDigit(s[i])
    ensures Digits(DigitsValue(s), |s|) == s
  {
    if s != [] {
      var init := s[..|s| - 1];
      var v := DigitsValue(init);
      var d := s[|s| - 1] as int - '0' as int;
      assert DigitsValue(s) == v * 10 + d;
      assert (v * 10 + d) / 10 == v && (v * 10 + d) % 10 == d;
      DigitsValueRoundTrip(init);
      assert s == init + [s[|s| - 1]];
    }
  }

  /** A broken-down UTC instant, as `Date.prototype.toISOString` reads it. */
  datatype DateTime = DateTime(year: int, month: nat, day: nat,
                               hour: nat, minute: nat, second: nat, millis: nat)
  {
    /** Field ranges of an instant a JavaScript `Date` can hold. */
    predicate Valid() {
      && -271821 <= year <= 275760
      && 1 <= month <= 12 && 1 <= day <= 31
      && hour < 24 && minute < 60 && second < 60 && millis < 1000
    }
  }

  type Instant = t: DateTime | t.Valid() witness DateTime(1970, 1, 1, 0, 0, 0, 0)

  /** The year field of `toISOString`: four digits for years 0 to 9999, otherwise a
      sign and six digits. */
  function YearField(y: int): (r: string)
    requires -271821 <= y <= 275760
    ensures 0 <= y <= 9999 ==> |r| == 4
    ensures !(0 <= y <= 9999) ==> |r| == 7
    ensures 'T' !in r
  {
    if 0 <= y <= 9999 then Digits(y, 4)
    else if y < 0 then "-" + Digits(-y, 6)
    else "+" + Digits(y, 6)
  }

  function HourMinute(hour: nat, minute: nat): string {
    Digits(hour, 2) + ":" + Digits(minute, 2)
  }

  function CalendarDay(t: Instant): (r: string)
    ensures 'T' !in r
  {
    YearField(t.year) + "-" + Digits(t.month, 2) + "-" + Digits(t.day, 2)
  }

  /** `Date.prototype.toISOString`. */
  function ToIsoString(t: Instant): (r: string)
    ensures |r| == |CalendarDay(t)| + 14
    ensures r[..|CalendarDay(t)|] == CalendarDay(t) && r[|CalendarDay(t)|] == 'T'
    ensures r[|r| - 1] == 'Z'
    ensures 0 <= t.year <= 9999 ==> |r| == 24
    ensures !(0 <= t.year <= 9999) ==> |r| == 27
  {
    CalendarDay(t) + "T" + HourMinute(t.hour, t.minute) + ":" + Digits(t.second, 2)
      + "." + Digits(t.millis, 3) + "Z"
  }

  /** `s.split(sep)[0]`: everything before the first `sep`, or all of `s`. */
  function BeforeFirst(s: string, sep: char): (r: string)
    ensures sep !in r
    ensures sep !in s ==> r == s
    ensures |r| <= |s| && r == s[..|r|]
    ensures |r| < |s| ==> s[|r|] == sep
  {
    if s == [] || s[0] == sep then [] else [s[0]] + BeforeFirst(s[1..], sep)
  }

  /** `String.prototype.substring`: both bounds clamped to the string, and swapped
      when the start lies past the end. Positions here are characters, where
      JavaScript counts UTF-16 code units; the two agree on strings inside the Basic
      Multilingual Plane, such as the ASCII output of `toISOString`, the only string
      the hook cuts. */
  function Substring(s: string, start: int, end: int): (r: string)
    ensures |r| <= |s|
    ensures 0 <= start <= end <= |s| ==> r == s[start..end]
    ensures 0 <= end <= start <= |s| ==> r == s[end..start]
    ensures 0 <= start <= |s| <= end ==> r == s[start..]
    ensures (start <= 0 && end <= 0) || (start >= |s| && end >= |s|) ==> r == []
  {
    var a := if start < 0 then 0 else if start > |s| then |s| else start;
    var b := if end < 0 then 0 else if end > |s| then |s| else end;
    if a <= b then s[a..b] else s[b..a]
  }

  /** `toISOString().split("T")[0]`: what the hook stores for a parsed date. */
  function IsoDate(t: Instant): string {
    BeforeFirst(ToIsoString(t), 'T')
  }

  /** `toISOString().substring(11, 16)`: what the hook stores for a parsed time. */
  function IsoClock(t: Instant): string {
    Substring(ToIsoString(t), 11, 16)
  }

  /** `/^([01][0-9]|2[0-3]):[0-5][0-9]$/`. */
  predicate IsHourMinute(s: string) {
    && |s| == 5
    && ((s[0] in "01" && IsDigit(s[1])) || (s[0] == '2' && '0' <= s[1] <= '3'))
    && s[2] == ':' && '0' <= s[3] <= '5' && IsDigit(s[4])
  }

  /** `YYYY-MM-DD`. */
  predicate IsYearMonthDay(s: string) {
    && |s| == 10 && s[4] == '-' && s[7] == '-'
    && forall i :: 0 <= i < 10 && i != 4 && i != 7 ==> IsDigit(s[i])
  }

  /* ---------------- lemmas ---------------- */

  /** The date kept from `toISOString` is the calendar day of the instant. */
  lemma IsoDateIsCalendarDay(t: Instant)
    ensures IsoDate(t) == CalendarDay(t)
  {
    var rest := "T" + HourMinute(t.hour, t.minute) + ":" + Digits(t.second, 2)
      + "." + Digits(t.millis, 3) + "Z";
    assert ToIsoString(t) == CalendarDay(t) + rest;
    BeforeFirstConcat(CalendarDay(t), rest, 'T');
  }

  /** Splitting at the first separator of `a + b` gives `a` when `a` has none and `b`
      starts with one. */
  lemma {:induction false} BeforeFirstConcat(a: string, b: string, sep: char)
    requires sep !in a && |b| > 0 && b[0] == sep
    ensures BeforeFirst(a + b, sep) == a
  {
    if a == [] {
      assert a + b == b;
    } else {
      assert (a + b)[1..] == a[1..] + b;
      BeforeFirstConcat(a[1..], b, sep);
      assert a == [a[0]] + a[1..];
    }
  }

  /** For years 0 to 9999 the stored date has the shape `YYYY-MM-DD` and its three
      fields read back as the instant's year, month and day. */
  lemma IsoDateFourDigitYear(t: Instant)
    requires 0 <= t.year <= 9999
    ensures IsYearMonthDay(IsoDate(t))
    ensures DigitsValue(IsoDate(t)[..4]) == t.year
    ensures DigitsValue(IsoDate(t)[5..7]) == t.month
    ensures DigitsValue(IsoDate(t)[8..]) == t.day
  {
    IsoDateIsCalendarDay(t);
    var s := IsoDate(t);
    assert s[..4] == Digits(t.year, 4);
    assert s[5..7] == Digits(t.month, 2);
    assert s[8..] == Digits(t.day, 2);
    DigitsRoundTrip(t.year, 4);
    DigitsRoundTrip(t.month, 2);
    DigitsRoundTrip(t.day, 2);
  }

  /** Outside years 0 to 9999 the stored date is thirteen characters long
      (`+YYYYYY-MM-DD` or `-YYYYYY-MM-DD`), so it is not `YYYY-MM-DD`. */
  lemma IsoDateExtendedYear(t: Instant)
    requires !(0 <= t.year <= 9999)
    ensures |IsoDate(t)| == 13 && !IsYearMonthDay(IsoDate(t))
  {
    IsoDateIsCalendarDay(t);
  }

  /** For years 0 to 9999 the characters 11 to 16 of `toISOString` are the
      instant's hour and minute. */
  lemma IsoClockFourDigitYear(t: Instant)
    requires 0 <= t.year <= 9999
    ensures IsoClock(t) == HourMinute(t.hour, t.minute)
  {
    var s := ToIsoString(t);
    assert |CalendarDay(t)| == 10;
    assert s == CalendarDay(t) + "T" + HourMinute(t.hour, t.minute)
      + (":" + Digits(t.second, 2) + "." + Digits(t.millis, 3) + "Z");
    assert s[11..16] == HourMinute(t.hour, t.minute);
  }

  /** Every hour and minute in range, written as the hook writes it, passes the
      `HH:MM` test, and reads back as the same hour and minute. */
  lemma HourMinuteMatches(hour: nat, minute: nat)
    requires hour < 24 && minute < 60
    ensures IsHourMinute(HourMinute(hour, minute))
    ensures DigitsValue(HourMinute(hour, minute)[..2]) == hour
    ensures DigitsValue(HourMinute(hour, minute)[3..]) == minute
  {
    var s := HourMinute(hour, minute);
    assert s[..2] == Digits(hour, 2);
    assert s[3..] == Digits(minute, 2);
    assert Digits(hour, 2) == [DigitChar(hour / 10 % 10), DigitChar(hour % 10)];
    assert Digits(minute, 2) == [DigitChar(minute / 10 % 10), DigitChar(minute % 10)];
    DigitsRoundTrip(hour, 2);
    DigitsRoundTrip(minute, 2);
  }

  /** Every string the `HH:MM` test accepts is an hour below 24 and a minute below 60
      written as the hook writes them. */
  lemma MatchesAreHourMinutes(s: string) returns (hour: nat, minute: nat)
    requires IsHourMinute(s)
    ensures hour < 24 && minute < 60
    ensures s == HourMinute(hour, minute)
  {
    var hh := s[..2];
    var mm := s[3..];
    hour := DigitsValue(hh);
    minute := DigitsValue(mm);
    assert DigitsValue(hh) == DigitsValue(hh[..1]) * 10 + (s[1] as int - '0' as int);
    assert hh[..1] == [s[0]];
    assert DigitsValue([s[0]]) == s[0] as int - '0' as int by {
      assert [s[0]][..0] == [];
    }
    assert DigitsValue(mm) == DigitsValue(mm[..1]) * 10 + (s[4] as int - '0' as int);
    assert mm[..1] == [s[3]];
    assert DigitsValue([s[3]]) == s[3] as int - '0' as int by {
      assert [s[3]][..0] == [];
    }
    DigitsValueRoundTrip(hh);
    DigitsValueRoundTrip(mm);
    assert s == hh + ":" + mm;
  }
}

=== FILE: route.dfy ===
/** The `POST` handler of the events route: connect, pick a body decoder from the
    `Content-Type` header, hand the decoded body to `Event.create`, and answer with
    a status code. Decoding a body and creating the Event are parameters of the
    handler: each either yields a result or throws. */
module EventsRoute {
  import opened Wrappers

  /** `String.prototype.includes`. */
  function Includes(hay: string, needle: string): bool
    decreases |hay|
  {
    if |hay| < |needle| then false
    else hay[..|needle|] == needle || Includes(hay[1..], needle)
  }

  ghost predicate OccursAt(hay: string, needle: string, i: int) {
    0 <= i && i + |needle| <= |hay| && hay[i..i + |needle|] == needle
  }

  ghost predicate Occurs(hay: string, needle: string) {
    exists i :: OccursAt(hay, needle, i)
  }

  /** The scan finds `needle` exactly when it occurs somewhere in `hay`. */
  lemma {:induction false} IncludesIffOccurs(hay: string, needle: string)
    ensures Includes(hay, needle) <==> Occurs(hay, needle)
    decreases |hay|
  {
    if |hay| < |needle| {
      // no position leaves room for the needle
    } else if hay[..|needle|] == needle {
      assert OccursAt(hay, needle, 0);
    } else {
      IncludesIffOccurs(hay[1..], needle);
      if Occurs(hay[1..], needle) {
        var i :| OccursAt(hay[1..], needle, i);
        assert hay[i + 1..i + 1 + |needle|] == hay[1..][i..i + |needle|];
        assert OccursAt(hay, needle, i + 1);
      }
      if Occurs(hay, needle) {
        var i :| OccursAt(hay, needle, i);
        assert i != 0;
        assert hay[1..][i - 1..i - 1 + |needle|] == hay[i..i + |needle|];
        assert OccursAt(hay[1..], needle, i - 1);
      }
    }
  }

  /** How the handler decodes the body. */
  datatype BodyKind = Json | Form | Unsupported

  const JsonType := "application/json"
  const MultipartType := "multipart/form-data"
  const UrlEncodedType := "application/x-www-form-urlencoded"

  /** The header tests of the handler: JSON first, then either form encoding. */
  function Classify(contentType: string): (k: BodyKind)
    ensures k == Json <==> Occurs(contentType, JsonType)
    ensures k == Form <==>
              !Occurs(contentType, JsonType)
              && (Occurs(contentType, MultipartType) || Occurs(contentType, UrlEncodedType))
  {
    IncludesIffOccurs(contentType, JsonType);
    IncludesIffOccurs(contentType, MultipartType);
    IncludesIffOccurs(contentType, UrlEncodedType);
    if Includes(contentType, JsonType) then Json
    else if Includes(contentType, MultipartType) || Includes(contentType, UrlEncodedType) then Form
    else Unsupported
  }

  /** No later entry has the same key as entry `i`. */
  ghost predicate LastWithKey(entries: seq<(string, string)>, i: int)
    requires 0 <= i < |entries|
  {
    forall j :: i < j < |entries| ==> entries[j].0 != entries[i].0
  }

  /** `Object.fromEntries`: each key maps to the value of its last entry. */
  function FromEntries(entries: seq<(string, string)>): (m: map<string, string>)
    ensures forall k :: k in m <==> exists i :: 0 <= i < |entries| && entries[i].0 == k
    ensures forall i :: 0 <= i < |entries| && LastWithKey(entries, i) ==> m[entries[i].0] == entries[i].1
  {
    if entries == [] then map[]
    else
      var init := entries[..|entries| - 1];
      var last := entries[|entries| - 1];
      assert forall i :: 0 <= i < |init| ==> init[i] == entries[i];
      FromEntries(init)[last.0 := last.1]
  }

  /** The body handed to `Event.create`. */
  datatype Payload<J> = JsonBody(json: J) | FormFields(fields: map<string, string>)

  /** The status of the reply, and the payload `Event.create` was called with, if
      it was called at all. */
  datatype Response<J> = Response(status: int, createInput: Option<Payload<J>>)

  /** Calls `Event.create` on `p`: 201 when it returns, 500 when it throws
      (validation errors included). */
  function Create<J>(p: Payload<J>, create: Payload<J> -> bool): (r: Response<J>)
    ensures r.createInput == Some(p)
    ensures r.status == 201 <==> create(p)
    ensures r.status == 500 <==> !create(p)
  {
    Response(if create(p) then 201 else 500, Some(p))
  }

  /** `POST`. `connected` is whether `connectDB` resolved; `header` the
      `Content-Type` header; `jsonBody` and `formEntries` what `req.json()` and
      `req.formData().entries()` yield, `None` when they throw; `create` whether
      `Event.create` returns rather than throws. */
  function Post<J>(connected: bool, header: Option<string>, jsonBody: Option<J>,
                   formEntries: Option<seq<(string, string)>>,
                   create: Payload<J> -> bool): (r: Response<J>)
    ensures r.status == 201 || r.status == 400 || r.status == 500
    ensures r.status == 201 <==> r.createInput.Some? && create(r.createInput.value)
    ensures r.status == 400 <==> connected && Classify(header.GetOr("")) == Unsupported
    ensures r.createInput.Some? ==> connected && r.status != 400
    ensures !connected ==> r.status == 500
    ensures (connected && Classify(header.GetOr("")) == Json && jsonBody.None?)
              ==> r == Response(500, None)
    ensures (connected && Classify(header.GetOr("")) == Form && formEntries.None?)
              ==> r == Response(500, None)
    ensures (connected && Classify(header.GetOr("")) == Json && jsonBody.Some?)
              ==> r.createInput == Some(JsonBody(jsonBody.value))
    ensures (connected && Classify(header.GetOr("")) == Form && formEntries.Some?)
              ==> r.createInput == Some(FormFields(FromEntries(formEntries.value)))
    ensures r.createInput.Some? ==>
              (jsonBody.Some? && r.createInput.value == JsonBody(jsonBody.value))
              || (formEntries.Some? && r.createInput.value == FormFields(FromEntries(formEntries.value)))
  {
    if !connected then Response(500, None)
    else
      match Classify(header.GetOr(""))
      case Unsupported => Response(400, None)
      case Json =>
        (match jsonBody
         case None => Response(500, None)
         case Some(j) => Create(JsonBody(j), create))
      case Form =>
        (match formEntries
         case None => Response(500, None)
         case Some(es) => Create(FormFields(FromEntries(es)), create))
  }

  /* ---------------- lemmas ---------------- */

  /** A request without a `Content-Type` header is answered 400 once the database is
      connected, and `Event.create` is not called. */
  lemma MissingHeaderRejected<J>(jsonBody: Option<J>, formEntries: Option<seq<(string, string)>>,
                                 create: Payload<J> -> bool)
    ensures Post(true, None, jsonBody, formEntries, create) == Response(400, None)
  {
    assert !Includes("", JsonType) && !Includes("", MultipartType) && !Includes("", UrlEncodedType);
  }

  /** JSON wins when the header names both JSON and a form encoding. */
  lemma JsonTakesPrecedence(contentType: string)
    requires Occurs(contentType, JsonType)
    ensures Classify(contentType) == Json
  {
  }

  /** A failed `Event.create`, validation errors included, is answered 500, not 400. */
  lemma CreateFailureIsServerError<J>(header: Option<string>, jsonBody: Option<J>,
                                      formEntries: Option<seq<(string, string)>>,
                                      create: Payload<J> -> bool)
    requires Post(true, header, jsonBody, formEntries, create).createInput.Some?
    requires !create(Post(true, header, jsonBody, formEntries, create).createInput.value)
    ensures Post(true, header, jsonBody, formEntries, create).status == 500
  {
  }

  /** With a repeated form key the value of the later entry is kept. */
  lemma RepeatedKeyLastWins(entries: seq<(string, string)>, k: string, v1: string, v2: string)
    ensures FromEntries(entries + [(k, v1)] + [(k, v2)])[k] == v2
  {
    var es := entries + [(k, v1)] + [(k, v2)];
    assert LastWithKey(es, |es| - 1);
  }
}

=== FILE: slug.dfy ===
/** Slug derivation of the Event pre-save hook: lower-case the title, trim it,
    delete every character outside `[\w\s-]`, turn each run of `[\s_]` into one
    hyphen, and strip leading and trailing hyphens. */
module Slug {
  import opened Text

  /** `[\w\s-]`: the characters the third rewrite keeps. */
  predicate IsKept(c: char) { IsWordChar(c) || IsJsSpace(c) || c == '-' }

  /** `[\s_]`: the characters whose runs become a single hyphen. */
  predicate IsSeparator(c: char) { IsJsSpace(c) || c == '_' }

  /** `[a-z0-9-]`: the alphabet of every derived slug. */
  predicate IsSlugChar(c: char) { IsLowerLetter(c) || IsDigit(c) || c == '-' }

  /** `replace(/[\s_]+/g, "-")`: each maximal run of separators becomes one hyphen;
      runs of hyphens already present are left alone. */
  function Hyphenate(s: string): (r: string)
    ensures forall i :: 0 <= i < |r| ==> !IsSeparator(r[i])
    ensures forall c :: c in r ==> c in s || c == '-'
    decreases |s|
  {
    if s == [] then []
    else if IsSeparator(s[0]) then "-" + Hyphenate(s[CountLeading(s, IsSeparator)..])
    else [s[0]] + Hyphenate(s[1..])
  }

  /** The slug the pre-save hook derives from a title. */
  function Slugify(title: string): (slug: string)
    ensures forall i :: 0 <= i < |slug| ==> IsSlugChar(slug[i])
    ensures |slug| > 0 ==> slug[0] != '-' && slug[|slug| - 1] != '-'
  {
    var hyphenated := Hyphenate(Filter(Trim(Lower(title)), IsKept));
    HyphenatedAlphabet(title);
    Strip(hyphenated, IsHyphen)
  }

  /* ---------------- lemmas ---------------- */

  /** Before the edge hyphens go, the string already uses only `[a-z0-9-]`. */
  lemma HyphenatedAlphabet(title: string)
    ensures forall c :: c in Hyphenate(Filter(Trim(Lower(title)), IsKept)) ==> IsSlugChar(c)
  {
    var lowered := Lower(title);
    var kept := Filter(Trim(lowered), IsKept);
    forall c | c in Hyphenate(kept) ensures IsSlugChar(c) {
      if c != '-' {
        assert c in kept;
        var i :| 0 <= i < |kept| && kept[i] == c;
        assert IsKept(c);
        assert c in lowered;
      }
    }
  }

  lemma {:induction false} HyphenateKeepsAlnums(s: string)
    ensures Filter(Hyphenate(s), IsAlnum) == Filter(s, IsAlnum)
    decreases |s|
  {
    if s != [] {
      if IsSeparator(s[0]) {
        var k := CountLeading(s, IsSeparator);
        HyphenateKeepsAlnums(s[k..]);
        SeparatorRunHasNoAlnums(s, k);
        assert ("-" + Hyphenate(s[k..]))[1..] == Hyphenate(s[k..]);
      } else {
        HyphenateKeepsAlnums(s[1..]);
        assert ([s[0]] + Hyphenate(s[1..]))[1..] == Hyphenate(s[1..]);
      }
    }
  }

  /** A leading run of separators holds no letter or digit. */
  lemma {:induction false} SeparatorRunHasNoAlnums(s: string, k: nat)
    requires k <= |s|
    requires forall i :: 0 <= i < k ==> IsSeparator(s[i])
    ensures Filter(s, IsAlnum) == Filter(s[k..], IsAlnum)
  {
    if k > 0 {
      assert !IsAlnum(s[0]);
      SeparatorRunHasNoAlnums(s[1..], k - 1);
      assert s[1..][k - 1..] == s[k..];
    }
  }

  lemma {:induction false} HyphenateNoSeparators(s: string)
    requires NoneOf(s, IsSeparator)
    ensures Hyphenate(s) == s
  {
    if s != [] {
      HyphenateNoSeparators(s[1..]);
    }
  }

  /** The rewrite works run by run: cutting the input where the cut does not split
      a run of separators cuts the output at the matching point. */
  lemma {:induction false} HyphenateConcat(a: string, b: string)
    requires a == [] || b == [] || !IsSeparator(a[|a| - 1]) || !IsSeparator(b[0])
    ensures Hyphenate(a + b) == Hyphenate(a) + Hyphenate(b)
    decreases |a|, 1
  {
    if a == [] {
      assert a + b == b;
    } else if IsSeparator(a[0]) {
      HyphenateConcatRun(a, b);
    } else {
      var t := a[1..];
      assert a == [a[0]] + t;
      assert a + b == [a[0]] + (t + b);
      assert t != [] ==> t[|t| - 1] == a[|a| - 1];
      HyphenateKeeps(a[0], t + b);
      HyphenateKeeps(a[0], t);
      HyphenateConcat(t, b);
    }
  }

  /** `HyphenateConcat` when `a` starts with a separator run. */
  lemma {:induction false} HyphenateConcatRun(a: string, b: string)
    requires |a| > 0 && IsSeparator(a[0])
    requires b == [] || !IsSeparator(a[|a| - 1]) || !IsSeparator(b[0])
    ensures Hyphenate(a + b) == Hyphenate(a) + Hyphenate(b)
    decreases |a|, 0
  {
    var k := CountLeading(a, IsSeparator);
    CountLeadingConcat(a, b, IsSeparator);
    assert (a + b)[0] == a[0];
    HyphenateSepUnfold(a + b);
    HyphenateSepUnfold(a);
    if k < |a| {
      var t := a[k..];
      assert CountLeading(a + b, IsSeparator) == k;
      SliceOfConcat(a, b, k);
      assert t[|t| - 1] == a[|a| - 1];
      HyphenateConcat(t, b);
      ConcatAssoc("-", Hyphenate(t), Hyphenate(b));
    } else {
      assert CountLeading(b, IsSeparator) == 0;
      assert CountLeading(a + b, IsSeparator) == k;
      assert (a + b)[k..] == b;
      assert a[k..] == [];
      calc {
        Hyphenate(a + b);
        "-" + Hyphenate(b);
        { assert Hyphenate(a) == "-" + Hyphenate([]); }
        Hyphenate(a) + Hyphenate(b);
      }
    }
  }

  /** One step of the rewrite on a string that starts with a separator. */
  lemma HyphenateSepUnfold(s: string)
    requires |s| > 0 && IsSeparator(s[0])
    ensures Hyphenate(s) == "-" + Hyphenate(s[CountLeading(s, IsSeparator)..])
  {
  }

  /** A whole run of separators, however long, becomes one hyphen. */
  lemma HyphenateRun(run: string)
    requires |run| > 0
    requires forall i :: 0 <= i < |run| ==> IsSeparator(run[i])
    ensures Hyphenate(run) == "-"
  {
    assert CountLeading(run, IsSeparator) == |run|;
  }

  /** The letters and digits of the slug are exactly those of the title,
      lower-cased and in order: only punctuation, spacing and hyphens differ. */
  lemma SlugKeepsAlnums(title: string)
    ensures Filter(Slugify(title), IsAlnum) == Filter(Lower(title), IsAlnum)
  {
    var lowered := Lower(title);
    var kept := Filter(Trim(lowered), IsKept);
    StripKeepsFilter(Hyphenate(kept), IsHyphen, IsAlnum);
    HyphenateKeepsAlnums(kept);
    FilterNested(Trim(lowered), IsKept, IsAlnum);
    StripKeepsFilter(lowered, IsJsSpace, IsAlnum);
  }

  /** Deriving a slug from a slug gives it back unchanged. */
  lemma SlugIdempotent(title: string)
    ensures Slugify(Slugify(title)) == Slugify(title)
  {
    var s := Slugify(title);
    SlugFixedPoint(s);
  }

  /** Every stage of the pipeline leaves a string of slug characters without edge
      hyphens as it is. */
  lemma SlugFixedPoint(s: string)
    requires forall i :: 0 <= i < |s| ==> IsSlugChar(s[i])
    requires |s| > 0 ==> s[0] != '-' && s[|s| - 1] != '-'
    ensures Slugify(s) == s
  {
    assert forall i :: 0 <= i < |s| ==> !IsUpper(s[i]) && IsKept(s[i]) && !IsSeparator(s[i]);
    LowerNoUpper(s);
    StripNoEdges(s, IsJsSpace);
    FilterKeepsAll(s, IsKept);
    HyphenateNoSeparators(s);
    StripNoEdges(s, IsHyphen);
    calc {
      Slugify(s);
      Strip(Hyphenate(Filter(Trim(Lower(s)), IsKept)), IsHyphen);
      { assert Lower(s) == s; }
      Strip(Hyphenate(Filter(Trim(s), IsKept)), IsHyphen);
      { assert Trim(s) == s; }
      Strip(Hyphenate(Filter(s, IsKept)), IsHyphen);
      { assert Filter(s, IsKept) == s; }
      Strip(Hyphenate(s), IsHyphen);
      { assert Hyphenate(s) == s; }
      Strip(s, IsHyphen);
      s;
    }
  }

  /** The slug is empty exactly when the title has no ASCII letter or digit. */
  lemma SlugEmptyIff(title: string)
    ensures Slugify(title) == [] <==> NoneOf(title, IsAlnum)
  {
    var slug := Slugify(title);
    SlugKeepsAlnums(title);
    FilterLower(title, IsAlnum);
    FilterEmpty(title, IsAlnum);
    FilterEmpty(slug, IsAlnum);
  }

  /** Trimming the title first (the schema's `trim` setter) does not change the slug. */
  lemma SlugIgnoresTitleTrim(title: string)
    ensures Slugify(Trim(title)) == Slugify(title)
  {
    TrimLowerCommute(title);
    TrimIdempotent(Lower(title));
  }

  /** Hyphens already in the title survive: runs are not collapsed. */
  lemma SlugKeepsHyphenRuns()
    ensures Slugify("a - b") == "a---b"
  {
    var t := "a - b";
    assert forall i :: 0 <= i < |t| ==> !IsUpper(t[i]) && IsKept(t[i]);
    SlugOfCleanTitle(t);
    HyphenateExample();
    StripNoEdges("a---b", IsHyphen);
  }

  /** For a title that is already lower-case, trimmed and free of characters the
      pipeline deletes, only the last two rewrites act. */
  lemma SlugOfCleanTitle(t: string)
    requires forall i :: 0 <= i < |t| ==> !IsUpper(t[i]) && IsKept(t[i])
    requires |t| > 0 ==> !IsJsSpace(t[0]) && !IsJsSpace(t[|t| - 1])
    ensures Slugify(t) == Strip(Hyphenate(t), IsHyphen)
  {
    LowerNoUpper(t);
    StripNoEdges(t, IsJsSpace);
    FilterKeepsAll(t, IsKept);
  }

  lemma HyphenateExample()
    ensures Hyphenate("a - b") == "a---b"
  {
    HyphenateKeeps('b', "");
    HyphenateSingle(' ', "b");
    HyphenateKeeps('-', "-b");
    HyphenateSingle(' ', "- b");
    HyphenateKeeps('a', " - b");
  }

  /** A character outside `[\s_]` is copied through. */
  lemma HyphenateKeeps(c: char, s: string)
    requires !IsSeparator(c)
    ensures Hyphenate([c] + s) == [c] + Hyphenate(s)
  {
    assert ([c] + s)[1..] == s;
  }

  /** A lone separator becomes one hyphen. */
  lemma HyphenateSingle(c: char, s: string)
    requires IsSeparator(c)
    requires s == [] || !IsSeparator(s[0])
    ensures Hyphenate([c] + s) == "-" + Hyphenate(s)
  {
    assert CountLeading([c] + s, IsSeparator) == 1 by {
      assert ([c] + s)[1..] == s;
    }
    assert ([c] + s)[1..] == s;
  }
}

=== FILE: text.dfy ===
/** Character classes and string rewrites that the JavaScript source relies on:
    the regular-expression classes `\s` and `\w`, `toLowerCase` and `trim`. */
module Text {

  /** `\s` of a JavaScript regular expression, which is also the set of characters
      `String.prototype.trim` removes: the ECMAScript WhiteSpace and LineTerminator
      code points. */
  predicate IsJsSpace(c: char) {
    var n := c as int;
    || (0x09 <= n <= 0x0D) || n == 0x20 || n == 0xA0 || n == 0x1680
    || (0x2000 <= n <= 0x200A) || n == 0x2028 || n == 0x2029
    || n == 0x202F || n == 0x205F || n == 0x3000 || n == 0xFEFF
  }

  predicate IsUpper(c: char) { 'A' <= c <= 'Z' }
  predicate IsLowerLetter(c: char) { 'a' <= c <= 'z' }
  predicate IsDigit(c: char) { '0' <= c <= '9' }
  predicate IsAlnum(c: char) { IsUpper(c) || IsLowerLetter(c) || IsDigit(c) }

  /** `\w` without the `u` flag: `[A-Za-z0-9_]`. */
  predicate IsWordChar(c: char) { IsAlnum(c) || c == '_' }

  predicate IsHyphen(c: char) { c == '-' }

  /** `toLowerCase` on one character, restricted to ASCII: every other character
      is left as it is. */
  function LowerChar(c: char): (r: char)
    ensures !IsUpper(r)
    ensures IsUpper(c) ==> IsLowerLetter(r) && r as int - 'a' as int == c as int - 'A' as int
    ensures !IsUpper(c) ==> r == c
  {
    if IsUpper(c) then (c as int - 'A' as int + 'a' as int) as char else c
  }

  function Lower(s: string): (r: string)
    ensures |r| == |s|
    ensures forall i :: 0 <= i < |r| ==> r[i] == LowerChar(s[i])
  {
    seq(|s|, i requires 0 <= i < |s| => LowerChar(s[i]))
  }

  /** The characters of `s` that satisfy `p`, in order (a global `replace` of the
      complement class by the empty string). */
  function Filter(s: string, p: char -> bool): (r: string)
    ensures |r| <= |s|
    ensures forall i :: 0 <= i < |r| ==> p(r[i])
    ensures forall c :: c in r ==> c in s
  {
    if s == [] then []
    else if p(s[0]) then [s[0]] + Filter(s[1..], p)
    else Filter(s[1..], p)
  }

  /** Length of the longest prefix of `s` made of characters satisfying `p`. */
  function CountLeading(s: string, p: char -> bool): (n: nat)
    ensures n <= |s|
    ensures forall i :: 0 <= i < n ==> p(s[i])
    ensures n < |s| ==> !p(s[n])
  {
    if s != [] && p(s[0]) then 1 + CountLeading(s[1..], p) else 0
  }

  /** Length of the longest suffix of `s` made of characters satisfying `p`. */
  function CountTrailing(s: string, p: char -> bool): (n: nat)
    ensures n <= |s|
    ensures forall i :: |s| - n <= i < |s| ==> p(s[i])
    ensures n < |s| ==> !p(s[|s| - 1 - n])
  {
    if s != [] && p(s[|s| - 1]) then 1 + CountTrailing(s[..|s| - 1], p) else 0
  }

  /** `s` without its leading and trailing runs of `p`-characters
      (the regular expression `^p+|p+$` replaced globally by the empty string). */
  function Strip(s: string, p: char -> bool): (r: string)
    ensures |r| > 0 ==> !p(r[0]) && !p(r[|r| - 1])
    ensures forall c :: c in r ==> c in s
  {
    DropTrailing(DropLeading(s, p), p)
  }

  /** Every character of `s` outside `s[i..j]` satisfies `p`. */
  predicate RemovedOnlyEdges(s: string, i: int, j: int, p: char -> bool)
    requires 0 <= i <= j <= |s|
  {
    && (forall k :: 0 <= k < i ==> p(s[k]))
    && (forall k :: j <= k < |s| ==> p(s[k]))
  }

  function DropLeading(s: string, p: char -> bool): (r: string)
    ensures |r| > 0 ==> !p(r[0])
    ensures forall c :: c in r ==> c in s
  {
    s[CountLeading(s, p)..]
  }

  function DropTrailing(s: string, p: char -> bool): (r: string)
    ensures |r| > 0 ==> !p(r[|r| - 1])
    ensures forall c :: c in r ==> c in s
    ensures |s| > 0 && !p(s[0]) ==> |r| > 0 && r[0] == s[0]
  {
    s[..|s| - CountTrailing(s, p)]
  }

  /** `String.prototype.trim`. */
  function Trim(s: string): (r: string)
    ensures |r| > 0 ==> !IsJsSpace(r[0]) && !IsJsSpace(r[|r| - 1])
    ensures forall c :: c in r ==> c in s
  {
    Strip(s, IsJsSpace)
  }

  /** `String.prototype.length`: the number of UTF-16 code units, two for each
      character outside the Basic Multilingual Plane. */
  function JsLength(s: string): (n: nat)
    ensures |s| <= n <= 2 * |s|
    ensures (forall i :: 0 <= i < |s| ==> (s[i] as int) < 0x1_0000) ==> n == |s|
    ensures |s| == 1 ==> n == (if s[0] as int < 0x1_0000 then 1 else 2)
  {
    if s == [] then 0
    else (if s[0] as int < 0x1_0000 then 1 else 2) + JsLength(s[1..])
  }

  predicate NoneOf(s: string, p: char -> bool) {
    forall i :: 0 <= i < |s| ==> !p(s[i])
  }

  /* ---------------- lemmas ---------------- */

  lemma SliceOfConcat(a: string, b: string, k: nat)
    requires k <= |a|
    ensures (a + b)[k..] == a[k..] + b
  {
  }

  lemma ConcatAssoc(x: string, y: string, z: string)
    ensures x + (y + z) == (x + y) + z
  {
  }

  /** Code units add up over concatenation: a surrogate pair is never split. */
  lemma {:induction false} JsLengthConcat(a: string, b: string)
    ensures JsLength(a + b) == JsLength(a) + JsLength(b)
  {
    if a == [] {
      assert a + b == b;
    } else {
      assert (a + b)[1..] == a[1..] + b;
      JsLengthConcat(a[1..], b);
    }
  }

  lemma {:induction false} FilterConcat(a: string, b: string, p: char -> bool)
    ensures Filter(a + b, p) == Filter(a, p) + Filter(b, p)
  {
    if a == [] {
      assert a + b == b;
    } else {
      assert (a + b)[1..] == a[1..] + b;
      FilterConcat(a[1..], b, p);
    }
  }

  /** The leading run of a concatenation stops inside `a` or runs on into `b`. */
  lemma {:induction false} CountLeadingConcat(a: string, b: string, p: char -> bool)
    ensures CountLeading(a + b, p)
            == if CountLeading(a, p) < |a| then CountLeading(a, p) else |a| + CountLeading(b, p)
  {
    if a == [] {
      assert a + b == b;
    } else {
      assert (a + b)[0] == a[0];
      assert (a + b)[1..] == a[1..] + b;
      CountLeadingConcat(a[1..], b, p);
    }
  }

  /** Filtering removes nothing exactly when every character already passes. */
  lemma {:induction false} FilterKeepsAll(s: string, p: char -> bool)
    ensures Filter(s, p) == s <==> forall i :: 0 <= i < |s| ==> p(s[i])
  {
    if s != [] {
      FilterKeepsAll(s[1..], p);
      if !p(s[0]) {
        assert |Filter(s[1..], p)| <= |s[1..]|;
      }
    }
  }

  /** Filtering yields nothing exactly when no character passes. */
  lemma {:induction false} FilterEmpty(s: string, p: char -> bool)
    ensures Filter(s, p) == [] <==> NoneOf(s, p)
  {
    if s != [] {
      FilterEmpty(s[1..], p);
    }
  }

  /** A finer filter after a coarser one is the finer filter alone. */
  lemma {:induction false} FilterNested(s: string, p: char -> bool, q: char -> bool)
    requires forall c :: q(c) ==> p(c)
    ensures Filter(Filter(s, p), q) == Filter(s, q)
  {
    if s != [] {
      FilterNested(s[1..], p, q);
    }
  }

  /** Removing `p`-runs at the edges does not change what a filter for characters
      disjoint from `p` sees. */
  lemma StripKeepsFilter(s: string, p: char -> bool, q: char -> bool)
    requires forall c :: q(c) ==> !p(c)
    ensures Filter(Strip(s, p), q) == Filter(s, q)
  {
    DropLeadingKeepsFilter(s, p, q);
    DropTrailingKeepsFilter(DropLeading(s, p), p, q);
  }

  lemma DropLeadingKeepsFilter(s: string, p: char -> bool, q: char -> bool)
    requires forall c :: q(c) ==> !p(c)
    ensures Filter(DropLeading(s, p), q) == Filter(s, q)
  {
    var k := CountLeading(s, p);
    assert s == s[..k] + s[k..];
    FilterConcat(s[..k], s[k..], q);
    FilterEmpty(s[..k], q);
  }

  lemma DropTrailingKeepsFilter(s: string, p: char -> bool, q: char -> bool)
    requires forall c :: q(c) ==> !p(c)
    ensures Filter(DropTrailing(s, p), q) == Filter(s, q)
  {
    var m := |s| - CountTrailing(s, p);
    assert s == s[..m] + s[m..];
    FilterConcat(s[..m], s[m..], q);
    assert forall i :: 0 <= i < |s[m..]| ==> p(s[m..][i]);
    FilterEmpty(s[m..], q);
  }

  /** Stripping removes `p`-characters at the two ends only: what is left is one
      contiguous piece of `s`. With `Strip`'s contract (neither end of the result is
      a `p`-character) this determines the result. */
  lemma StripRemovesOnlyEdges(s: string, p: char -> bool)
    ensures exists i, j :: 0 <= i <= j <= |s| && Strip(s, p) == s[i..j]
                           && RemovedOnlyEdges(s, i, j, p)
  {
    var i := CountLeading(s, p);
    var t := s[i..];
    var j := i + |t| - CountTrailing(t, p);
    assert Strip(s, p) == s[i..j];
    forall k | j <= k < |s| ensures p(s[k]) {
      assert s[k] == t[k - i];
    }
    assert RemovedOnlyEdges(s, i, j, p);
  }

  /** `trim` removes whitespace at the two ends and nothing else. */
  lemma TrimRemovesOnlyEdges(s: string)
    ensures exists i, j :: 0 <= i <= j <= |s| && Trim(s) == s[i..j]
                           && RemovedOnlyEdges(s, i, j, IsJsSpace)
  {
    StripRemovesOnlyEdges(s, IsJsSpace);
  }

  /** Stripping is the identity on a string whose ends are not `p`-characters. */
  lemma StripNoEdges(s: string, p: char -> bool)
    requires |s| > 0 ==> !p(s[0]) && !p(s[|s| - 1])
    ensures Strip(s, p) == s
  {
  }

  lemma StripIdempotent(s: string, p: char -> bool)
    ensures Strip(Strip(s, p), p) == Strip(s, p)
  {
    StripNoEdges(Strip(s, p), p);
  }

  lemma {:induction false} CountLeadingLower(s: string)
    ensures CountLeading(Lower(s), IsJsSpace) == CountLeading(s, IsJsSpace)
  {
    if s != [] {
      LowerSlice(s, 1, |s|);
      CountLeadingLower(s[1..]);
    }
  }

  lemma {:induction false} CountTrailingLower(s: string)
    ensures CountTrailing(Lower(s), IsJsSpace) == CountTrailing(s, IsJsSpace)
  {
    if s != [] {
      LowerSlice(s, 0, |s| - 1);
      assert Lower(s)[..|s| - 1] == Lower(s)[0..|s| - 1];
      CountTrailingLower(s[..|s| - 1]);
    }
  }

  lemma LowerSlice(s: string, i: nat, j: nat)
    requires i <= j <= |s|
    ensures Lower(s)[i..j] == Lower(s[i..j])
  {
    var a := Lower(s)[i..j];
    var b := Lower(s[i..j]);
    assert |a| == |b|;
    forall k | 0 <= k < |a| ensures a[k] == b[k] {
      calc {
        a[k];
        Lower(s)[i + k];
        LowerChar(s[i + k]);
        LowerChar(s[i..j][k]);
        b[k];
      }
    }
  }

  /** Lower-casing and trimming commute, so the order in which the two setters run
      does not matter. */
  lemma TrimLowerCommute(s: string)
    ensures Trim(Lower(s)) == Lower(Trim(s))
  {
    DropLeadingLower(s);
    DropTrailingLower(DropLeading(s, IsJsSpace));
  }

  lemma DropLeadingLower(s: string)
    ensures DropLeading(Lower(s), IsJsSpace) == Lower(DropLeading(s, IsJsSpace))
  {
    CountLeadingLower(s);
    LowerSlice(s, CountLeading(s, IsJsSpace), |s|);
  }

  lemma DropTrailingLower(s: string)
    ensures DropTrailing(Lower(s), IsJsSpace) == Lower(DropTrailing(s, IsJsSpace))
  {
    CountTrailingLower(s);
    LowerSlice(s, 0, |s| - CountTrailing(s, IsJsSpace));
  }

  lemma {:induction false} LowerIdempotent(s: string)
    ensures Lower(Lower(s)) == Lower(s)
  {
  }

  /** A string without upper-case letters is its own lower-case form. */
  lemma LowerNoUpper(s: string)
    requires NoneOf(s, IsUpper)
    ensures Lower(s) == s
  {
  }

  lemma TrimIdempotent(s: string)
    ensures Trim(Trim(s)) == Trim(s)
  {
    StripIdempotent(s, IsJsSpace);
  }

  lemma {:induction false} FilterLower(s: string, p: char -> bool)
    requires forall c :: p(LowerChar(c)) <==> p(c)
    ensures Filter(Lower(s), p) == Lower(Filter(s, p))
  {
    if s != [] {
      assert Lower(s)[1..] == Lower(s[1..]);
      FilterLower(s[1..], p);
    }
  }
}

=== FILE: wrappers.dfy ===
/** Small failure-carrying datatypes shared by the whole model. */
module Wrappers {

  /** A value that may be missing: an absent request header, a date string
      that `new Date` cannot read, a field the caller did not send. */
  datatype Option<+T> = None | Some(value: T) {

    /** The wrapped value, or `default` when there is none (JavaScript's `x || default`
        for a possibly-undefined string). */
    function GetOr(default: T): (r: T)
      ensures Some? ==> r == value
      ensures None? ==> r == default
    {
      match this
      case Some(v) => v
      case None => default
    }
  }

  /** The outcome of a write against a store of type `S`: the store after the write,
      and the error that aborted it, if any. An aborted write hands back the store
      it was given. */
  datatype Saved<+S, +E> = Saved(state: S, error: Option<E>) {
    predicate Committed() { error.None? }
  }
}
